=== FILE: README.md ===
# CoreControl availability monitor and application listing, in Dafny

This project models two pieces of CoreControl.

**The agent's application monitor** is `MonitorApplications` in `agent/internal/app/monitor.go`. For each application, one monitoring run does four things:

1. It picks the URL to check.
2. It turns the HTTP client's answer into an online/offline outcome.
3. It updates the two in-memory "since" maps. These record when the current run of identical outcomes began.
4. It compares the outcome with the stored status. If they differ and the run of the new outcome has lasted at least the minimum downtime, it renders the message template. It then sends the notification, updates the stored status and appends one uptime-history row.

In the model, `Monitor.Step` is one application's turn and `Monitor.Run` is the fold over a run's application list. `MonitorTrace.Trace` follows one application over successive runs. Each run there sees the status written by the earlier ones. The network, the database and the clock are inputs:

- a `Probe` says what the client reported for the check URL;
- `now` is the check instant in nanoseconds;
- the three side effects come out as optional writes.

`Text.ReplaceAll` models Go's `strings.ReplaceAll`, which does the template rendering in `Message.Render`.

**The listing endpoint** is `POST` in `app/api/applications/get/route.ts`. It returns one page of applications in name order. Each row is joined with the name of its server. The response also carries the page count and the total. `Pagination` holds the page arithmetic and `ApplicationsRoute.Post` holds the endpoint. The database is given as the application table, already in name order, plus the server table.

Three behaviours of the code are worth stating plainly:

- A history row is written only on a notified transition (monitor.go:128-129), not on every check.
- The same minimum-downtime rule governs both directions, offline-to-online as well as online-to-offline.
- An outage is declared at the first check that comes at least the minimum downtime after the first offline outcome of the run. With a 60-second minimum, an outage whose run began at 90 s is declared by the check at 160 s, the first one at or after 150 s (`MonitorTrace.ScenarioSixtySeconds`).

## Model

| member | source | states |
|---|---|---|
| Message.Render | agent/internal/app/monitor.go:124-126 | the three `strings.ReplaceAll` passes in order (`!name`, then `!url`, then `!status`); its contract is carried by the `Message.Render…` lemmas below |
| Text.ReplaceAll | agent/internal/app/monitor.go:124 | Go's `strings.ReplaceAll`: a left-to-right scan replacing non-overlapping occurrences without rescanning inserted text; its contract is carried by the `Text.ReplaceAll…`, `Text.ReplaceOnly`, `Text.ReplaceSingle` and `Text.CountPositiveIff` lemmas below |
| Text.InterleaveAt | agent/internal/app/monitor.go:124 | the i-th block of \|rep\| + 1 characters of the empty-pattern result is `rep` followed by the i-th character; with the length of `Text.Interleave`, the last \|rep\| characters are `rep` |
| Text.Interleave | agent/internal/app/monitor.go:124 | Go's rule for an empty pattern: the replacement is inserted before every character and once at the end, so the result length is \|s\| + (\|s\| + 1) × \|rep\| |
| Message.TemplateOf | agent/internal/app/monitor.go:29-33 | the settings template is used unless the read failed or returned an empty string, in which case the default sentence is used |
| Message.RenderWithoutPlaceholders | agent/internal/app/monitor.go:124-126 | a template containing none of `!name`, `!url`, `!status` is sent unchanged |
| Message.RenderThreePlaceholders | agent/internal/app/monitor.go:124-126 | a template with the three placeholders in order renders to its literal text around the name, the public URL and "online"/"offline", when the name, the URL and the literal text contain no '!' (the last text may end in one) |
| Message.RenderDefaultTemplate | agent/internal/app/monitor.go:32 | the default template renders to "The application NAME (URL) went online!" or "... went offline!", when the name and the URL contain no '!' |
| Message.RenderRescansInsertedName | agent/internal/app/monitor.go:124-126 | the substitutions run in sequence over the whole text: a name that reads `!url` is replaced by the URL in the second pass |
| Text.ReplaceAllAbsent | agent/internal/app/monitor.go:124 | ReplaceAll leaves a text without the pattern unchanged |
| Text.ReplaceAllFixedIff | agent/internal/app/monitor.go:124 | for a replacement different from the pattern, the text is unchanged if and only if the pattern does not occur |
| Text.ReplaceAllLength | agent/internal/app/monitor.go:124 | the result length is the input length plus (number of replaced occurrences) × (\|rep\| − \|pat\|) |
| Text.CountPositiveIff | agent/internal/app/monitor.go:124 | the left-to-right scan replaces at least one occurrence if and only if the pattern occurs |
| Text.ReplaceAllKeepsPrefix | agent/internal/app/monitor.go:124 | a prefix in which no occurrence starts is copied through unchanged |
| Text.ReplaceOnly | agent/internal/app/monitor.go:124 | a text with a single occurrence (none starting before it, even one overlapping it, and none after it) has that occurrence replaced and the text around it kept, whatever the replacement contains, since inserted text is never rescanned |
| Text.ReplaceSingle | agent/internal/app/monitor.go:124 | the same, in the form the rendering proofs use: when the text before the occurrence has no character equal to the pattern's first |
| Text.ReplaceAfterEarlierBang | agent/internal/app/monitor.go:124 | an earlier '!' does not block the replacement: `ReplaceAll("a!x!nameb", "!name", "N")` is `"a!xNb"` |
| Monitor.CheckUrl | agent/internal/app/monitor.go:39-44 | the uptime-check URL is checked when it is non-empty, otherwise the public URL |
| Monitor.Classify | agent/internal/app/monitor.go:46-83 | an invalid URL or a request that cannot be built skips the application; a response means online iff 200 ≤ status < 400; an error means online only for an IP host with a TLS hostname or unknown-authority error |
| Monitor.EffectiveMinDowntime | agent/internal/app/monitor.go:86-89 | the application's own minimum downtime when set, otherwise 30 seconds |
| Monitor.ThresholdNanos | agent/internal/app/monitor.go:111 | the threshold is the minimum downtime in whole seconds, as nanoseconds |
| Monitor.ThresholdNanosAsWritten | agent/internal/app/monitor.go:111-117 | `time.Duration(minDowntime)*time.Second` in Go's int64 arithmetic: the result is always a 64-bit value, equal to the intended threshold inside ±9223372036 s (`Monitor.ThresholdAsWrittenInRange`) and wrapped outside it (`Monitor.ThresholdOverflowNotifiesAtOnce`) |
| Monitor.UpdateSince | agent/internal/app/monitor.go:91-103 | the first outcome of a run stamps `now` in its own map and removes the id from the other map; a repeated outcome changes nothing; other ids are untouched |
| Monitor.Step | agent/internal/app/monitor.go:40-130 | a skipped check changes nothing; the notification, status update and history row happen together or not at all, carry the new outcome and id, happen only on a change, and the message names the public URL |
| Monitor.StepNotifiesIff | agent/internal/app/monitor.go:105-122 | with outcome o, the step notifies iff o differs from the stored status and now minus the start of the current run of o is at least the threshold, the same rule for both directions |
| Monitor.StepSinceInvariant | agent/internal/app/monitor.go:91-103 | after a check the id is in offlineSince iff offline and in onlineSince iff online, never both |
| Monitor.StepKeepsRunStart | agent/internal/app/monitor.go:92-98 | a repeated outcome keeps the timestamp of the first outcome of its run |
| Monitor.StepIdempotent | agent/internal/app/monitor.go:105-130 | after a notified transition, with the stored status updated, the same outcome notifies and writes nothing more |
| Monitor.RunMessagesUsePublicUrl | agent/internal/app/monitor.go:39-126 | whatever the probes of the check URLs report, every message of a run is the template rendered with the name and public URL of one of the run's applications, so the check URL never reaches a message |
| Monitor.MonitorApplications | agent/internal/app/monitor.go:28-35 | the template is chosen once per call from the settings read (the default sentence when the read fails), and every message of the run renders that template for one of the checked applications |
| Monitor.Run | agent/internal/app/monitor.go:35-132 | a run makes no more notifications than it checks applications, one per status update, the history rows are exactly the status updates, and every write is for an application of the run |
| Monitor.RunLeavesOthers | agent/internal/app/monitor.go:91-103 | since-map entries of applications outside the run are untouched |
| Monitor.RunPreservesNotBoth | agent/internal/app/monitor.go:22-25 | no id is ever in both since-maps, and a run keeps it so |
| Monitor.StepAsWritten | agent/internal/app/monitor.go:111-117 | the step with Go's int64 duration arithmetic, where the notification still comes with its status update and history row |
| Monitor.ThresholdAsWrittenInRange | agent/internal/app/monitor.go:117 | between −9223372036 and 9223372036 seconds, the 64-bit threshold equals the intended one |
| Monitor.ThresholdOverflowNotifiesAtOnce | agent/internal/app/monitor.go:117 | a minimum downtime of 9223372037 s wraps to a negative duration, so the as-written step notifies at the first differing check and the intended step does not |
| MonitorTrace.Trace | agent/internal/app/monitor.go:105-130 | across runs, every write is for the monitored application and there is at most one per check |
| MonitorTrace.StoredStatusMatchesLastRow | agent/internal/app/monitor.go:128-129 | the stored status always equals the status of the last history row written |
| MonitorTrace.SameAsStoredNeverFires | agent/internal/app/monitor.go:105 | outcomes equal to the stored status never notify |
| MonitorTrace.RepeatedOutcomeFiresAtMostOnce | agent/internal/app/monitor.go:105-130 | repeating one outcome, with skipped checks in between, declares at most one change |
| MonitorTrace.FlapWithinThresholdIsSilent | agent/internal/app/monitor.go:91-122 | a flap away from the stored status that stays within the minimum downtime declares nothing |
| MonitorTrace.PersistentChangeFiresOnce | agent/internal/app/monitor.go:91-130 | a changed outcome that persists until the minimum downtime has elapsed since its run began declares exactly one change |
| MonitorTrace.ScenarioSixtySeconds | agent/internal/app/monitor.go:86-130 | with a 60 s minimum, checks at 0/30/45/90/160 s (online, offline, online, offline, offline) declare one offline change, at 160 s |
| Pagination.ClampPage | app/api/applications/get/route.ts:12 | the page is always ≥ 1: a missing, zero or negative page becomes 1, and any other page is kept |
| Pagination.PageSize | app/api/applications/get/route.ts:13 | the page size is 10 when missing or zero, and otherwise the given value |
| Pagination.Window | app/api/applications/get/route.ts:17-18 | skip/take gives the elements from position skip, at most take of them, as many as the list has |
| Pagination.PageOf | app/api/applications/get/route.ts:15-20 | page p holds the elements at positions [(p−1)·n, (p−1)·n+n) of the name-ordered list: exactly min(n, total − (p−1)·n) of them, or none once (p−1)·n reaches the total |
| Pagination.MaxPage | app/api/applications/get/route.ts:51 | (maxPage−1)·n < total ≤ maxPage·n, and maxPage is 0 exactly when there are no applications |
| Pagination.MaxPageUnique | app/api/applications/get/route.ts:51 | these bounds determine maxPage: no other page count satisfies them |
| Pagination.PageNonEmptyIff | app/api/applications/get/route.ts:15-51 | for a page ≥ 1, the page is non-empty exactly when it is at most maxPage |
| Pagination.PagesPartitionList | app/api/applications/get/route.ts:15-51 | pages 1..maxPage are the consecutive chunks of the list, and together they are the whole list |
| ApplicationsRoute.FindServer | app/api/applications/get/route.ts:48 | `find` returns the first server with the given id, or nothing when no server has it |
| ApplicationsRoute.ServerName | app/api/applications/get/route.ts:48 | the name of the first server with the application's serverId; "No server" when serverId is null, nothing matches, or the matched name is empty |
| ApplicationsRoute.ServerIds | app/api/applications/get/route.ts:37-39 | the page's non-null server ids, exactly |
| ApplicationsRoute.ServersWithIds | app/api/applications/get/route.ts:41-43 | the fetched servers are exactly the servers whose id is among the page's server ids |
| ApplicationsRoute.Decorate | app/api/applications/get/route.ts:45-49 | each answer row keeps the selected columns, copies min_downtime_seconds to minDowntimeSeconds and adds the server name |
| ApplicationsRoute.Post | app/api/applications/get/route.ts:9-58 | the answer holds the rows at the page's positions in name order, exactly min(n, total − skip) of them (none past the end), maxPage = ceil(total/n), totalItems = the number of applications, and all servers |
| ApplicationsRoute.FetchedLookupAgrees | app/api/applications/get/route.ts:41-48 | for any server id of the page, looking up among the servers fetched for the page (in table order) gives the same name as looking up in the whole table |
| ApplicationsRoute.ListingJoinsServers | app/api/applications/get/route.ts:37-49 | every answer row names the server its serverId points to in the server table |
| ApplicationsRoute.TotalIgnoresPage | app/api/applications/get/route.ts:51-57 | totalItems and maxPage do not depend on the page asked for |
| ApplicationsRoute.DefaultRequestIsFirstTen | app/api/applications/get/route.ts:12-20 | a body `{}` with neither field gets the first ten applications in name order (all of them when there are fewer) |

## Findings

| source | as written | input that shows it | evidently intended | confidence | as-written member | corrected member |
|---|---|---|---|---|---|---|
| agent/internal/app/monitor.go:111-117 | `time.Duration(minDowntime)*time.Second` is computed in int64 nanoseconds and wraps around for a minimum downtime above 9223372036 s | min_downtime_seconds = 9223372037, stored online, first offline check: the threshold wraps to −9223372036709551616 ns and the notification fires at once (Monitor.ThresholdOverflowNotifiesAtOnce) | hold the notification back for the configured number of seconds | low (not executed; it needs min_downtime_seconds above 9223372036, which cannot be stored if the column is a 32-bit integer, and the schema is not part of this model) | Monitor.StepAsWritten | Monitor.Step |

`Monitor.Step`, which the rest of the model uses, takes the minimum downtime times 10^9 without wrap-around. `Monitor.StepNotifiesIff` states the intended rule for it.

## Left out

- The HTTP client, the SQL statements and the notification sender are not modelled. They are replaced by the `Probe` input and the three optional writes. The notifications package is not part of this model, so per-channel delivery and its failure isolation are not covered.
- `url.Parse`, `net.ParseIP`, `errors.As` over x509 errors, `context.WithTimeout` and `time.Now` become inputs. These are the `Probe` variants, `hostIsIP`, the `TransportError` cause and `now`.
- Monitor.Step: the agent reads the clock twice, once when stamping a since-map (monitor.go:93, 99) and again in `time.Since` (monitor.go:111, 117). The model uses one instant per check. Go's saturation of `time.Sub` beyond about 292 years is not modelled.
- MonitorTrace.StoredStatusMatchesLastRow: the model assumes both writes succeed. A failed history INSERT is only logged (monitor.go:158-160): the stored status then changes with no new row, so the property holds of the rows the agent asks to write, not of the rows in the table. `Trace` also assumes the caller reads the applications again before each run, so each run sees the status the previous one wrote; that caller is not part of this model, and `MonitorApplications` itself never changes its `apps` argument (monitor.go:28).
- MonitorTrace.Trace: the model assumes the status update succeeds. A failed UPDATE is only logged (monitor.go:144-146). That would leave the stored status unchanged, and the next run would notify again.
- The `defer cancel()` / `defer resp.Body.Close()` inside the loop and all logging are left out. They handle resources and output, and do not affect behaviour.
- Text.ReplaceAll works on characters, while Go scans bytes. This is the same for the ASCII placeholders used here. Go's empty-pattern rule is modelled by `Interleave`, but the monitor never uses it.
- ApplicationsRoute.Post: the model answers a negative page size with the error response. The query library's handling of a negative `take`/`skip` is not part of this model.
- ApplicationsRoute.Post: fractional, NaN and non-numeric `page` / `ITEMS_PER_PAGE` values are not modelled. The request fields are optional integers.
- The name ordering is the database's (`orderBy: { name: "asc" }`), so the application table is given already in that order. The server query has no `orderBy`, so it is modelled in table order; in that order, the lookup among the fetched servers agrees with the lookup in the whole table (`ApplicationsRoute.FetchedLookupAgrees`). A database that returns the servers in another order could, only if two servers shared an id, make `find` pick a different one; server ids are the table's key, and other fetch orders are not modelled.
- Other database failures on the route (route.ts:59-61) are not modelled. Servers carry only their id and name. The other server columns pass through untouched and are not modelled.
- Uptime bucketing, the dashboard pages (Servers.tsx, Settings.tsx, Uptime.tsx) and the server monitoring route are not part of this model. They are UI, or floating-point conversion, outside the two pieces modelled here.

=== FILE: applications_route.dfy ===
/**
 * The application listing endpoint: one page of the applications in name order,
 * each joined with the name of its server, plus the page count and the total.
 * The database is given as the application table in name order and the server
 * table.
 */
module ApplicationsRoute {
  import opened Wrappers
  import opened Pagination

  const NoServer: string := "No server"

  datatype Server = Server(id: int, name: string)

  /** The selected columns of an application row */
  datatype ApplicationRow = ApplicationRow(
    id: int,
    name: string,
    description: Option<string>,
    icon: Option<string>,
    publicURL: string,
    localURL: Option<string>,
    serverId: Option<int>,
    online: bool,
    uptimecheckUrl: Option<string>,
    min_downtime_seconds: Option<int>)

  /** A row of the answer: the selected columns, the camel-case copy of the minimum downtime, and the server name */
  datatype ApplicationView = ApplicationView(row: ApplicationRow, minDowntimeSeconds: Option<int>, server: string)

  /** The request body; a field that is absent is None */
  datatype PostRequest = PostRequest(page: Option<int>, itemsPerPage: Option<int>)

  datatype Response =
    | Listing(applications: seq<ApplicationView>, servers: seq<Server>, maxPage: int, totalItems: nat)
    | InternalError

  /** The position of the first server with the given id */
  function FindServer(servers: seq<Server>, id: int): (r: Option<nat>)
    ensures r.Some? ==> r.value < |servers| && servers[r.value].id == id
    ensures r.Some? ==> forall j | 0 <= j < r.value :: servers[j].id != id
    ensures r.None? ==> forall j | 0 <= j < |servers| :: servers[j].id != id
  {
    if |servers| == 0 then None
    else if servers[0].id == id then Some(0)
    else match FindServer(servers[1..], id)
      case None => None
      case Some(k) => Some(k + 1)
  }

  /** `servers.find(s => s.id === serverId)?.name || "No server"` */
  function ServerName(servers: seq<Server>, serverId: Option<int>): (name: string)
    ensures name != []
    ensures serverId.None? ==> name == NoServer
    ensures serverId.Some? && (forall j | 0 <= j < |servers| :: servers[j].id != serverId.value) ==> name == NoServer
    ensures forall k | 0 <= k < |servers| && serverId == Some(servers[k].id)
                       && (forall j | 0 <= j < k :: servers[j].id != servers[k].id) ::
              name == (if servers[k].name == [] then NoServer else servers[k].name)
  {
    if serverId.None? then NoServer
    else match FindServer(servers, serverId.value)
      case None => NoServer
      case Some(k) => if servers[k].name == [] then NoServer else servers[k].name
  }

  /** The non-null server ids of the rows, in row order */
  function ServerIds(rows: seq<ApplicationRow>): (ids: seq<int>)
    ensures forall id :: id in ids <==> exists k | 0 <= k < |rows| :: rows[k].serverId == Some(id)
  {
    if |rows| == 0 then []
    else
      var rest := ServerIds(rows[1..]);
      assert forall k | 1 <= k < |rows| :: rows[k] == rows[1..][k - 1];
      if rows[0].serverId.Some? then [rows[0].serverId.value] + rest else rest
  }

  /** The server query restricted to the given ids, in table order */
  function ServersWithIds(servers: seq<Server>, ids: seq<int>): (r: seq<Server>)
    ensures forall s :: s in r <==> s in servers && s.id in ids
    ensures |r| <= |servers|
  {
    if |servers| == 0 then []
    else
      var rest := ServersWithIds(servers[1..], ids);
      if servers[0].id in ids then [servers[0]] + rest else rest
  }

  /** One answer row: the row as selected, its minimum downtime under the camel-case name, its server's name */
  function Decorate(row: ApplicationRow, servers: seq<Server>): (v: ApplicationView)
    ensures v.row == row && v.minDowntimeSeconds == row.min_downtime_seconds
    ensures v.server == ServerName(servers, row.serverId)
  {
    ApplicationView(row, row.min_downtime_seconds, ServerName(servers, row.serverId))
  }

  /**
   * POST /api/applications/get. The page and the page size get their defaults;
   * a negative page size is answered with the error response.
   */
  function Post(req: PostRequest, byName: seq<ApplicationRow>, servers: seq<Server>): (r: Response)
    ensures PageSize(req.itemsPerPage) < 0 <==> r.InternalError?
    ensures r.Listing? ==>
              var page, n := ClampPage(req.page), PageSize(req.itemsPerPage);
              && |r.applications| == (if Skip(page, n) >= |byName| then 0 else Min(n, |byName| - Skip(page, n)))
              && (forall k | 0 <= k < |r.applications| ::
                    Skip(page, n) + k < |byName|
                    && r.applications[k].row == byName[Skip(page, n) + k]
                    && r.applications[k].minDowntimeSeconds == byName[Skip(page, n) + k].min_downtime_seconds)
              && r.maxPage == MaxPage(|byName|, n)
              && r.totalItems == |byName|
              && r.servers == servers
  {
    var page := ClampPage(req.page);
    var n := PageSize(req.itemsPerPage);
    if n < 0 then InternalError
    else
      var rows := PageOf(byName, page, n);
      var fetched := ServersWithIds(servers, ServerIds(rows));
      Listing(seq(|rows|, k requires 0 <= k < |rows| => Decorate(rows[k], fetched)),
              servers, MaxPage(|byName|, n), |byName|)
  }

  /** Looking a server up among those fetched for the page finds what a lookup in the whole table finds */
  lemma {:induction false} FetchedLookupAgrees(servers: seq<Server>, ids: seq<int>, id: int)
    requires id in ids
    ensures ServerName(ServersWithIds(servers, ids), Some(id)) == ServerName(servers, Some(id))
    decreases |servers|
  {
    if |servers| != 0 {
      var f := ServersWithIds(servers, ids);
      var rest := ServersWithIds(servers[1..], ids);
      FetchedLookupAgrees(servers[1..], ids, id);
      if servers[0].id == id {
        assert f[0] == servers[0];
      } else {
        assert ServerName(servers, Some(id)) == ServerName(servers[1..], Some(id)) by {
          ServerNameSkipsHead(servers, id);
        }
        if servers[0].id in ids {
          assert f[1..] == rest;
          ServerNameSkipsHead(f, id);
        }
      }
    }
  }

  /** A first server with another id does not take part in the lookup */
  lemma ServerNameSkipsHead(servers: seq<Server>, id: int)
    requires |servers| > 0 && servers[0].id != id
    ensures ServerName(servers, Some(id)) == ServerName(servers[1..], Some(id))
  {
  }

  /** Every answer row names the server its serverId points to in the whole server table */
  lemma ListingJoinsServers(req: PostRequest, byName: seq<ApplicationRow>, servers: seq<Server>)
    ensures var r := Post(req, byName, servers);
            r.Listing? ==>
              forall k | 0 <= k < |r.applications| ::
                r.applications[k].server == ServerName(servers, r.applications[k].row.serverId)
  {
    var r := Post(req, byName, servers);
    if r.Listing? {
      var page, n := ClampPage(req.page), PageSize(req.itemsPerPage);
      var rows := PageOf(byName, page, n);
      var ids := ServerIds(rows);
      forall k | 0 <= k < |r.applications|
        ensures r.applications[k].server == ServerName(servers, r.applications[k].row.serverId)
      {
        var row := rows[k];
        assert r.applications[k] == Decorate(row, ServersWithIds(servers, ids));
        if row.serverId.Some? {
          assert row.serverId.value in ids;
          FetchedLookupAgrees(servers, ids, row.serverId.value);
        }
      }
    }
  }

  /** The total and the page count depend on the page size only, never on the page asked for */
  lemma TotalIgnoresPage(req: PostRequest, req': PostRequest, byName: seq<ApplicationRow>, servers: seq<Server>)
    requires req.itemsPerPage == req'.itemsPerPage
    ensures var r, r' := Post(req, byName, servers), Post(req', byName, servers);
            r.Listing? ==> r'.Listing? && r.totalItems == r'.totalItems == |byName| && r.maxPage == r'.maxPage
  {
  }

  /** A body with neither field gets the first ten applications in name order (all of them when there are fewer) */
  lemma DefaultRequestIsFirstTen(byName: seq<ApplicationRow>, servers: seq<Server>)
    ensures var r := Post(PostRequest(None, None), byName, servers);
            && r.Listing?
            && |r.applications| == Min(10, |byName|)
            && forall k | 0 <= k < |r.applications| :: r.applications[k].row == byName[k]
  {
  }
}

=== FILE: message.dfy ===
/** The notification text for an application status change */
module Message {
  import opened Wrappers
  import Text

  const DefaultTemplate: string := "The application !name (!url) went !status!"

  /** The template used for a whole run: the settings value, unless the read failed or it is empty */
  function TemplateOf(setting: Option<string>): (t: string)
    ensures setting.Some? && setting.value != [] ==> t == setting.value
    ensures setting.None? || setting.value == [] ==> t == DefaultTemplate
    ensures t != []
  {
    if setting.Some? && setting.value != [] then setting.value else DefaultTemplate
  }

  /** `!status` is replaced by this word */
  function StatusWord(online: bool): string {
    if online then "online" else "offline"
  }

  /** The three substitutions, in the order the monitor applies them */
  function Render(template: string, name: string, publicURL: string, online: bool): string {
    var m1 := Text.ReplaceAll(template, "!name", name);
    var m2 := Text.ReplaceAll(m1, "!url", publicURL);
    Text.ReplaceAll(m2, "!status", StatusWord(online))
  }

  /** A template without any of the three placeholders is sent as it is */
  lemma RenderWithoutPlaceholders(template: string, name: string, publicURL: string, online: bool)
    requires !Text.Contains(template, "!name")
    requires !Text.Contains(template, "!url")
    requires !Text.Contains(template, "!status")
    ensures Render(template, name, publicURL, online) == template
  {
    Text.ReplaceAllAbsent(template, "!name", name);
    Text.ReplaceAllAbsent(template, "!url", publicURL);
    Text.ReplaceAllAbsent(template, "!status", StatusWord(online));
  }

  /**
   * A template made of the three placeholders in order, between texts that hold
   * no '!' (the last text may end in one), renders to those texts around the
   * name, the public URL and the status word, as long as the name and the URL
   * hold no '!' either.
   */
  lemma RenderThreePlaceholders(p0: string, p1: string, p2: string, p3: string,
                                name: string, url: string, online: bool)
    requires '!' !in p0 && '!' !in p1 && '!' !in p2 && '!' !in name && '!' !in url
    requires forall i | 0 <= i < |p3| - 1 :: p3[i] != '!'
    ensures Render(p0 + "!name" + p1 + "!url" + p2 + "!status" + p3, name, url, online)
            == p0 + name + p1 + url + p2 + StatusWord(online) + p3
  {
    var word := StatusWord(online);
    // the text after each placeholder holds none of the placeholders scanned for in that pass
    Text.NoMatchUpToLast(p3, "!status");
    Text.NoMatchUpToLast(p3, "!url");
    Text.NoMatchUpToLast(p3, "!name");
    Text.NoMatchAcrossOther(p2, "!status", p3, "!url");
    Text.NoMatchAcrossOther(p2, "!status", p3, "!name");
    Text.NoMatchAcrossOther(p1, "!url", p2 + "!status" + p3, "!name");

    var r1 := p1 + "!url" + (p2 + "!status" + p3);
    assert p0 + "!name" + p1 + "!url" + p2 + "!status" + p3 == p0 + "!name" + r1;
    Text.ReplaceSingle(p0, "!name", r1, name);

    var a2, r2 := p0 + name + p1, p2 + "!status" + p3;
    assert p0 + name + r1 == a2 + "!url" + r2;
    Text.ReplaceSingle(a2, "!url", r2, url);

    var a3 := a2 + url + p2;
    assert a2 + url + r2 == a3 + "!status" + p3;
    Text.ReplaceSingle(a3, "!status", p3, word);
    assert a3 + word + p3 == p0 + name + p1 + url + p2 + word + p3;
  }

  /** The default template renders to the sentence it spells out */
  lemma RenderDefaultTemplate(name: string, url: string, online: bool)
    requires '!' !in name && '!' !in url
    ensures Render(DefaultTemplate, name, url, online)
            == "The application " + name + " (" + url + ") went " + StatusWord(online) + "!"
  {
    assert DefaultTemplate == "The application " + "!name" + " (" + "!url" + ") went " + "!status" + "!";
    RenderThreePlaceholders("The application ", " (", ") went ", "!", name, url, online);
  }

  /**
   * The substitutions run one after the other over the whole text: a name that
   * itself reads "!url" ends up replaced by the URL.
   */
  lemma RenderRescansInsertedName(url: string, online: bool)
    requires '!' !in url
    ensures Render("!name", "!url", url, online) == url
  {
    Text.TooShortNoMatch([], "!name");
    Text.ReplaceSingle([], "!name", [], "!url");
    assert [] + "!name" + [] == "!name" && [] + "!url" + [] == "!url";
    Text.TooShortNoMatch([], "!url");
    Text.ReplaceSingle([], "!url", [], url);
    assert [] + url + [] == url;
    Text.NoFirstCharNoMatch(url, |url|, "!status");
    Text.KeepsAll(url, "!status", StatusWord(online));
  }
}

=== FILE: monitor.dfy ===
/**
 * The per-application availability step of the agent's application monitor
 * and its fold over the list of applications of one monitoring run.
 *
 * The network, the database and the clock are inputs: a check arrives as a
 * `Probe` (what the HTTP client reported for the check URL), `now` is the
 * instant of the check in nanoseconds, and the three database/notification
 * side effects come out as optional writes.
 */
module Monitor {
  import opened Wrappers
  import opened Message

  /** Seconds a changed outcome must persist before it is declared, when the application sets none */
  const GlobalMinDowntimeSeconds: int := 30
  const NanosPerSecond: int := 1_000_000_000

  /** The selected columns of an application row the monitor reads */
  datatype Application = Application(
    id: int,
    name: string,
    publicURL: string,
    uptimeCheckURL: string,
    online: bool,                      // the stored (declared) status
    minDowntimeSeconds: Option<int>)   // NULL in the table is None

  /** The x509 cause inside a failed request, as far as the monitor distinguishes it */
  datatype TransportError = CertHostnameMismatch | CertUnknownAuthority | OtherTransportError

  /** What happened when the agent tried to check one URL */
  datatype Probe =
    | InvalidUrl                                        // url.Parse failed
    | RequestNotCreated                                 // http.NewRequestWithContext failed
    | Answered(statusCode: int)                         // the client got a response
    | Failed(hostIsIP: bool, cause: TransportError)     // the client returned an error

  /** A write to the database: the status update and the history row carry the same pair */
  datatype StatusWrite = StatusWrite(appId: int, online: bool)

  /** When the current run of identical outcomes began, per application id */
  datatype SinceMaps = SinceMaps(offlineSince: map<int, nat>, onlineSince: map<int, nat>)

  datatype StepResult = StepResult(
    maps: SinceMaps,
    notification: Option<string>,      // the message handed to the notification sender
    statusUpdate: Option<StatusWrite>, // UPDATE application SET online
    historyRow: Option<StatusWrite>)   // INSERT INTO uptime_history

  /** The URL the agent checks: the dedicated uptime-check URL when set, the public URL otherwise */
  function CheckUrl(app: Application): (u: string)
    ensures app.uptimeCheckURL != [] ==> u == app.uptimeCheckURL
    ensures app.uptimeCheckURL == [] ==> u == app.publicURL
  {
    if app.uptimeCheckURL != [] then app.uptimeCheckURL else app.publicURL
  }

  /** The probe's verdict: None when the application is skipped for this run, else whether it is online */
  function Classify(p: Probe): (r: Option<bool>)
    ensures r.None? <==> p.InvalidUrl? || p.RequestNotCreated?
    ensures p.Answered? ==> (r == Some(true) <==> 200 <= p.statusCode < 400)
    ensures p.Failed? ==> (r == Some(true) <==> p.hostIsIP && p.cause != OtherTransportError)
  {
    match p
    case InvalidUrl => None
    case RequestNotCreated => None
    case Answered(code) => Some(200 <= code < 400)
    case Failed(hostIsIP, cause) =>
      Some(hostIsIP && (cause == CertHostnameMismatch || cause == CertUnknownAuthority))
  }

  /** The application's own minimum downtime when it has one, otherwise the global default */
  function EffectiveMinDowntime(app: Application): (secs: int)
    ensures app.minDowntimeSeconds.Some? ==> secs == app.minDowntimeSeconds.value
    ensures app.minDowntimeSeconds.None? ==> secs == 30
  {
    app.minDowntimeSeconds.GetOr(GlobalMinDowntimeSeconds)
  }

  /** The minimum downtime as a duration in nanoseconds (see ThresholdNanosAsWritten for the 64-bit version) */
  function ThresholdNanos(secs: int): (d: int)
    ensures secs >= 0 ==> d >= 0
    ensures d / NanosPerSecond == secs && d % NanosPerSecond == 0
  {
    secs * NanosPerSecond
  }

  const Two63: int := 0x8000_0000_0000_0000
  const Two64: int := 0x1_0000_0000_0000_0000

  /** Two's-complement wrap-around of Go's int64 arithmetic */
  function WrapInt64(x: int): (r: int)
    ensures -Two63 <= r < Two63
    ensures (x - r) % Two64 == 0
    ensures -Two63 <= x < Two63 ==> r == x
  {
    (x + Two63) % Two64 - Two63
  }

  /** `time.Duration(minDowntime) * time.Second` exactly as Go evaluates it, overflow included */
  function ThresholdNanosAsWritten(secs: int): (d: int)
    ensures -Two63 <= d < Two63
  {
    WrapInt64(WrapInt64(secs) * NanosPerSecond)
  }

  /** The since-map that records runs of the given outcome */
  function SinceFor(maps: SinceMaps, online: bool): map<int, nat> {
    if online then maps.onlineSince else maps.offlineSince
  }

  /** Both maps agree with `maps` on every id other than `id` */
  ghost predicate AgreeExcept(maps: SinceMaps, maps': SinceMaps, id: int) {
    && (forall k | k != id :: k in maps.offlineSince <==> k in maps'.offlineSince)
    && (forall k | k != id && k in maps.offlineSince :: maps'.offlineSince[k] == maps.offlineSince[k])
    && (forall k | k != id :: k in maps.onlineSince <==> k in maps'.onlineSince)
    && (forall k | k != id && k in maps.onlineSince :: maps'.onlineSince[k] == maps.onlineSince[k])
  }

  /** The id is in at most one of the two maps */
  predicate NotBoth(maps: SinceMaps, id: int) {
    !(id in maps.offlineSince && id in maps.onlineSince)
  }

  /** When the current run of `online` outcomes began, counting a check at `now` as part of it */
  function RunStart(maps: SinceMaps, id: int, online: bool, now: nat): nat {
    var m := SinceFor(maps, online);
    if id in m then m[id] else now
  }

  /**
   * Record a check outcome: the first outcome of a run stamps `now` in its own
   * map and removes the id from the other map; a repeated outcome changes nothing.
   */
  function UpdateSince(maps: SinceMaps, id: int, online: bool, now: nat): (r: SinceMaps)
    ensures id in SinceFor(r, online)
    ensures SinceFor(r, online)[id] == RunStart(maps, id, online, now)
    ensures id in SinceFor(maps, online) ==> r == maps
    ensures id !in SinceFor(maps, online) ==> id !in SinceFor(r, !online)
    ensures AgreeExcept(maps, r, id)
  {
    if online then
      if id in maps.onlineSince then maps
      else SinceMaps(maps.offlineSince - {id}, maps.onlineSince[id := now])
    else
      if id in maps.offlineSince then maps
      else SinceMaps(maps.offlineSince[id := now], maps.onlineSince - {id})
  }

  /**
   * The notification gate, evaluated after UpdateSince: a missing entry lets
   * the notification through, an entry younger than the threshold holds it back.
   */
  function ShouldNotify(maps: SinceMaps, id: int, online: bool, now: nat, threshold: int): bool {
    var m := SinceFor(maps, online);
    if id in m then !(now - m[id] < threshold) else true
  }

  /** One application's turn in a monitoring run, with the notification threshold given in nanoseconds */
  function StepWith(maps: SinceMaps, template: string, app: Application, probe: Probe, now: nat, threshold: int): (r: StepResult)
    ensures Classify(probe).None? ==> r == StepResult(maps, None, None, None)
    ensures r.notification.Some? <==> r.statusUpdate.Some?
    ensures r.statusUpdate == r.historyRow
    ensures r.statusUpdate.Some? ==>
              && Classify(probe).Some?
              && r.statusUpdate.value == StatusWrite(app.id, Classify(probe).value)
              && Classify(probe).value != app.online
              && r.notification.value == Render(template, app.name, app.publicURL, Classify(probe).value)
    ensures AgreeExcept(maps, r.maps, app.id)
  {
    match Classify(probe)
    case None => StepResult(maps, None, None, None)
    case Some(online) =>
      var m := UpdateSince(maps, app.id, online, now);
      if online != app.online && ShouldNotify(m, app.id, online, now, threshold) then
        var w := StatusWrite(app.id, online);
        StepResult(m, Some(Render(template, app.name, app.publicURL, online)), Some(w), Some(w))
      else
        StepResult(m, None, None, None)
  }

  /**
   * One application's turn in a monitoring run. A skipped check changes nothing;
   * the notification, the status update and the history row come together or
   * not at all, and carry the new outcome.
   */
  function Step(maps: SinceMaps, template: string, app: Application, probe: Probe, now: nat): (r: StepResult)
    ensures Classify(probe).None? ==> r == StepResult(maps, None, None, None)
    ensures r.notification.Some? <==> r.statusUpdate.Some?
    ensures r.statusUpdate == r.historyRow
    ensures r.statusUpdate.Some? ==>
              && Classify(probe).Some?
              && r.statusUpdate.value == StatusWrite(app.id, Classify(probe).value)
              && Classify(probe).value != app.online
              && r.notification.value == Render(template, app.name, app.publicURL, Classify(probe).value)
    ensures AgreeExcept(maps, r.maps, app.id)
  {
    StepWith(maps, template, app, probe, now, ThresholdNanos(EffectiveMinDowntime(app)))
  }

  /** The step with Go's 64-bit duration arithmetic for the threshold */
  function StepAsWritten(maps: SinceMaps, template: string, app: Application, probe: Probe, now: nat): (r: StepResult)
    ensures r.notification.Some? <==> r.statusUpdate.Some?
    ensures r.statusUpdate == r.historyRow
  {
    StepWith(maps, template, app, probe, now, ThresholdNanosAsWritten(EffectiveMinDowntime(app)))
  }

  /** Between -9223372036 and 9223372036 seconds (about 292 years) the 64-bit threshold is the intended one */
  lemma ThresholdAsWrittenInRange(secs: int)
    requires -9_223_372_036 <= secs <= 9_223_372_036
    ensures ThresholdNanosAsWritten(secs) == ThresholdNanos(secs)
  {
  }

  /**
   * A minimum downtime of 9223372037 seconds overflows int64 nanoseconds into a
   * negative duration: the as-written step notifies on the very first differing
   * check, where the intended step holds the notification back.
   */
  lemma ThresholdOverflowNotifiesAtOnce()
    ensures var app := Application(1, "a", "u", [], true, Some(9_223_372_037));
            var p := Failed(false, OtherTransportError);
            var empty := SinceMaps(map[], map[]);
            && ThresholdNanosAsWritten(9_223_372_037) < 0
            && StepAsWritten(empty, DefaultTemplate, app, p, 0).notification.Some?
            && Step(empty, DefaultTemplate, app, p, 0).notification.None?
  {
  }

  /**
   * The decision rule: with the outcome `o` differing from the stored status, the
   * step notifies exactly when the run of `o` outcomes began at least the minimum
   * downtime ago; an outcome equal to the stored status never notifies. The same
   * rule holds for both directions.
   */
  lemma StepNotifiesIff(maps: SinceMaps, template: string, app: Application, probe: Probe, now: nat, o: bool)
    requires Classify(probe) == Some(o)
    ensures var r := Step(maps, template, app, probe, now);
            r.notification.Some? <==>
              o != app.online
              && now - RunStart(maps, app.id, o, now) >= ThresholdNanos(EffectiveMinDowntime(app))
  {
  }

  /** After a check, the id sits in exactly the map of its outcome, provided it was in at most one before */
  lemma StepSinceInvariant(maps: SinceMaps, template: string, app: Application, probe: Probe, now: nat, o: bool)
    requires NotBoth(maps, app.id) && Classify(probe) == Some(o)
    ensures var r := Step(maps, template, app, probe, now);
            && (app.id in r.maps.offlineSince <==> !o)
            && (app.id in r.maps.onlineSince <==> o)
            && NotBoth(r.maps, app.id)
  {
  }

  /** A repeated outcome keeps the timestamp of the first outcome of its run */
  lemma StepKeepsRunStart(maps: SinceMaps, template: string, app: Application, probe: Probe, now: nat, o: bool)
    requires Classify(probe) == Some(o) && app.id in SinceFor(maps, o)
    ensures Step(maps, template, app, probe, now).maps == maps
  {
  }

  /** After a notified transition the stored status equals the outcome, so the same outcome notifies nothing more */
  lemma StepIdempotent(maps: SinceMaps, template: string, app: Application, probe: Probe, now: nat,
                       probe': Probe, now': nat)
    requires Step(maps, template, app, probe, now).statusUpdate.Some?
    requires Classify(probe') == Classify(probe)
    ensures var r := Step(maps, template, app, probe, now);
            var app' := app.(online := r.statusUpdate.value.online);
            var r' := Step(r.maps, template, app', probe', now');
            && r'.notification.None? && r'.statusUpdate.None? && r'.historyRow.None?
            && r'.maps == r.maps
  {
  }

  /** One application to check in a run, with the instant of its check */
  datatype Check = Check(app: Application, now: nat)

  datatype RunResult = RunResult(
    maps: SinceMaps,
    notifications: seq<string>,
    statusUpdates: seq<StatusWrite>,
    historyRows: seq<StatusWrite>)

  /** Ids of the applications in a run */
  function Ids(checks: seq<Check>): set<int> {
    set k | 0 <= k < |checks| :: checks[k].app.id
  }

  /**
   * A monitoring run: the applications in order, each probed at its check URL
   * through `probeOf`, the since-maps threaded from one to the next.
   */
  function Run(maps: SinceMaps, template: string, checks: seq<Check>, probeOf: (string, nat) -> Probe): (r: RunResult)
    ensures |r.notifications| == |r.statusUpdates| <= |checks|
    ensures r.historyRows == r.statusUpdates
    ensures forall w | w in r.statusUpdates :: w.appId in Ids(checks)
    decreases |checks|
  {
    if |checks| == 0 then RunResult(maps, [], [], [])
    else
      var c := checks[0];
      var s := Step(maps, template, c.app, probeOf(CheckUrl(c.app), c.now), c.now);
      var rest := Run(s.maps, template, checks[1..], probeOf);
      assert Ids(checks) == {c.app.id} + Ids(checks[1..]);
      var ns := if s.notification.Some? then [s.notification.value] else [];
      var ws := if s.statusUpdate.Some? then [s.statusUpdate.value] else [];
      RunResult(rest.maps, ns + rest.notifications, ws + rest.statusUpdates, ws + rest.historyRows)
  }

  /** `m` is the message the template gives for this application, going online or going offline */
  predicate IsMessageFor(m: string, template: string, app: Application) {
    m == Render(template, app.name, app.publicURL, true) || m == Render(template, app.name, app.publicURL, false)
  }

  /**
   * Whatever the probes report for the check URLs, every message of a run is the
   * template rendered with the name and the public URL of a checked application
   */
  lemma {:induction false} RunMessagesUsePublicUrl(maps: SinceMaps, template: string, checks: seq<Check>,
                                                   probeOf: (string, nat) -> Probe)
    ensures forall m | m in Run(maps, template, checks, probeOf).notifications ::
              exists k | 0 <= k < |checks| :: IsMessageFor(m, template, checks[k].app)
    decreases |checks|
  {
    if |checks| != 0 {
      var c := checks[0];
      var s := Step(maps, template, c.app, probeOf(CheckUrl(c.app), c.now), c.now);
      var rest := Run(s.maps, template, checks[1..], probeOf);
      RunMessagesUsePublicUrl(s.maps, template, checks[1..], probeOf);
      var ns := if s.notification.Some? then [s.notification.value] else [];
      assert Run(maps, template, checks, probeOf).notifications == ns + rest.notifications;
      forall m | m in Run(maps, template, checks, probeOf).notifications
        ensures exists k | 0 <= k < |checks| :: IsMessageFor(m, template, checks[k].app)
      {
        if m in ns {
          assert IsMessageFor(m, template, checks[0].app);
        } else {
          var k :| 0 <= k < |checks[1..]| && IsMessageFor(m, template, checks[1..][k].app);
          assert checks[1..][k] == checks[k + 1];
        }
      }
    }
  }

  /**
   * One call of the monitor: the template is chosen once from the settings read,
   * then the run goes over the applications with it
   */
  function MonitorApplications(maps: SinceMaps, setting: Option<string>, checks: seq<Check>,
                               probeOf: (string, nat) -> Probe): (r: RunResult)
    ensures |r.notifications| == |r.statusUpdates| <= |checks|
    ensures forall m | m in r.notifications ::
              exists k | 0 <= k < |checks| :: IsMessageFor(m, TemplateOf(setting), checks[k].app)
    ensures setting.None? ==> forall m | m in r.notifications ::
              exists k | 0 <= k < |checks| :: IsMessageFor(m, DefaultTemplate, checks[k].app)
  {
    RunMessagesUsePublicUrl(maps, TemplateOf(setting), checks, probeOf);
    Run(maps, TemplateOf(setting), checks, probeOf)
  }

  /** Since-map entries of applications outside the run are untouched */
  lemma {:induction false} RunLeavesOthers(maps: SinceMaps, template: string, checks: seq<Check>,
                                           probeOf: (string, nat) -> Probe, id: int)
    requires id !in Ids(checks)
    ensures var m := Run(maps, template, checks, probeOf).maps;
            && (id in m.offlineSince <==> id in maps.offlineSince)
            && (id in m.onlineSince <==> id in maps.onlineSince)
            && (id in maps.offlineSince ==> m.offlineSince[id] == maps.offlineSince[id])
            && (id in maps.onlineSince ==> m.onlineSince[id] == maps.onlineSince[id])
    decreases |checks|
  {
    if |checks| != 0 {
      var c := checks[0];
      assert Ids(checks) == {c.app.id} + Ids(checks[1..]);
      var s := Step(maps, template, c.app, probeOf(CheckUrl(c.app), c.now), c.now);
      RunLeavesOthers(s.maps, template, checks[1..], probeOf, id);
    }
  }

  /** No id is ever in both maps: a run preserves that */
  lemma {:induction false} RunPreservesNotBoth(maps: SinceMaps, template: string, checks: seq<Check>,
                                               probeOf: (string, nat) -> Probe)
    requires forall id :: NotBoth(maps, id)
    ensures forall id :: NotBoth(Run(maps, template, checks, probeOf).maps, id)
    decreases |checks|
  {
    if |checks| != 0 {
      var c := checks[0];
      var p := probeOf(CheckUrl(c.app), c.now);
      var s := Step(maps, template, c.app, p, c.now);
      forall id
        ensures NotBoth(s.maps, id)
      {
        if id != c.app.id {
          assert NotBoth(maps, id);
          assert id in s.maps.offlineSince <==> id in maps.offlineSince;
          assert id in s.maps.onlineSince <==> id in maps.onlineSince;
        } else if Classify(p).Some? {
          StepSinceInvariant(maps, template, c.app, p, c.now, Classify(p).value);
        }
      }
      RunPreservesNotBoth(s.maps, template, checks[1..], probeOf);
    }
  }
}

=== FILE: monitor_trace.dfy ===
/**
 * One application across successive monitoring runs: each run sees the stored
 * status written by the previous runs and the since-maps they left behind.
 */
module MonitorTrace {
  import opened Wrappers
  import opened Monitor
  import opened Message

  /** One check of the application: what the probe reported and when */
  datatype Tick = Tick(probe: Probe, now: nat)

  datatype TraceResult = TraceResult(maps: SinceMaps, app: Application, writes: seq<StatusWrite>)

  /** Feed the ticks through Step, storing each status update before the next tick */
  function Trace(maps: SinceMaps, template: string, app: Application, ticks: seq<Tick>): (r: TraceResult)
    ensures |r.writes| <= |ticks|
    ensures r.app == app.(online := r.app.online)
    ensures forall k | 0 <= k < |r.writes| :: r.writes[k].appId == app.id
    decreases |ticks|
  {
    if |ticks| == 0 then TraceResult(maps, app, [])
    else
      var s := Step(maps, template, app, ticks[0].probe, ticks[0].now);
      var app' := if s.statusUpdate.Some? then app.(online := s.statusUpdate.value.online) else app;
      var rest := Trace(s.maps, template, app', ticks[1..]);
      var ws := if s.statusUpdate.Some? then [s.statusUpdate.value] else [];
      TraceResult(rest.maps, rest.app, ws + rest.writes)
  }

  /** Every tick reports `o` or is skipped */
  predicate AllOutcomes(ticks: seq<Tick>, o: bool) {
    forall k | 0 <= k < |ticks| :: Classify(ticks[k].probe) in {None, Some(o)}
  }

  /** The stored status always equals the status of the last history row written */
  lemma {:induction false} StoredStatusMatchesLastRow(maps: SinceMaps, template: string, app: Application, ticks: seq<Tick>)
    ensures var r := Trace(maps, template, app, ticks);
            && (|r.writes| == 0 ==> r.app == app)
            && (|r.writes| > 0 ==> r.app.online == r.writes[|r.writes| - 1].online)
    decreases |ticks|
  {
    if |ticks| != 0 {
      var s := Step(maps, template, app, ticks[0].probe, ticks[0].now);
      var app' := if s.statusUpdate.Some? then app.(online := s.statusUpdate.value.online) else app;
      StoredStatusMatchesLastRow(s.maps, template, app', ticks[1..]);
    }
  }

  /** Outcomes equal to the stored status never notify */
  lemma {:induction false} SameAsStoredNeverFires(maps: SinceMaps, template: string, app: Application, ticks: seq<Tick>)
    requires AllOutcomes(ticks, app.online)
    ensures Trace(maps, template, app, ticks).writes == []
    decreases |ticks|
  {
    if |ticks| != 0 {
      assert Classify(ticks[0].probe) in {None, Some(app.online)};
      var s := Step(maps, template, app, ticks[0].probe, ticks[0].now);
      assert AllOutcomes(ticks[1..], app.online) by {
        forall k | 0 <= k < |ticks[1..]|
          ensures Classify(ticks[1..][k].probe) in {None, Some(app.online)}
        {
          assert ticks[1..][k] == ticks[k + 1];
        }
      }
      SameAsStoredNeverFires(s.maps, template, app, ticks[1..]);
    }
  }

  /** Repeating one outcome declares at most one change */
  lemma {:induction false} RepeatedOutcomeFiresAtMostOnce(maps: SinceMaps, template: string, app: Application,
                                                          ticks: seq<Tick>, o: bool)
    requires AllOutcomes(ticks, o)
    ensures |Trace(maps, template, app, ticks).writes| <= 1
    decreases |ticks|
  {
    if |ticks| != 0 {
      assert Classify(ticks[0].probe) in {None, Some(o)};
      var s := Step(maps, template, app, ticks[0].probe, ticks[0].now);
      var app' := if s.statusUpdate.Some? then app.(online := s.statusUpdate.value.online) else app;
      assert AllOutcomes(ticks[1..], o) by {
        forall k | 0 <= k < |ticks[1..]|
          ensures Classify(ticks[1..][k].probe) in {None, Some(o)}
        {
          assert ticks[1..][k] == ticks[k + 1];
        }
      }
      if s.statusUpdate.Some? {
        SameAsStoredNeverFires(s.maps, template, app', ticks[1..]);
      } else {
        RepeatedOutcomeFiresAtMostOnce(s.maps, template, app', ticks[1..], o);
      }
    }
  }

  /**
   * A flap away from the stored status that ends (or is still going) before the
   * minimum downtime has passed since `t0` declares nothing, provided no run of
   * the other outcome started before `t0`.
   */
  lemma {:induction false} FlapWithinThresholdIsSilent(maps: SinceMaps, template: string, app: Application,
                                                       ticks: seq<Tick>, t0: nat)
    requires forall k | 0 <= k < |ticks| :: t0 <= ticks[k].now < t0 + ThresholdNanos(EffectiveMinDowntime(app))
    requires app.id in SinceFor(maps, !app.online) ==> SinceFor(maps, !app.online)[app.id] >= t0
    ensures Trace(maps, template, app, ticks).writes == []
    decreases |ticks|
  {
    if |ticks| != 0 {
      var t := ticks[0];
      var s := Step(maps, template, app, t.probe, t.now);
      var d := ThresholdNanos(EffectiveMinDowntime(app));
      if Classify(t.probe).Some? {
        var o := Classify(t.probe).value;
        StepNotifiesIff(maps, template, app, t.probe, t.now, o);
        if o != app.online {
          assert RunStart(maps, app.id, o, t.now) >= t0;
        }
      }
      assert s.statusUpdate.None?;
      assert app.id in SinceFor(s.maps, !app.online) ==> SinceFor(s.maps, !app.online)[app.id] >= t0 by {
        if Classify(t.probe) == Some(!app.online) {
          assert SinceFor(s.maps, !app.online)[app.id] == RunStart(maps, app.id, !app.online, t.now);
        }
      }
      assert forall k | 0 <= k < |ticks[1..]| :: ticks[1..][k] == ticks[k + 1];
      FlapWithinThresholdIsSilent(s.maps, template, app, ticks[1..], t0);
    }
  }

  /**
   * An outcome different from the stored status that persists until at least the
   * minimum downtime after its run began declares exactly one change.
   */
  lemma {:induction false} PersistentChangeFiresOnce(maps: SinceMaps, template: string, app: Application,
                                                     ticks: seq<Tick>, o: bool)
    requires o != app.online && |ticks| > 0
    requires forall k | 0 <= k < |ticks| :: Classify(ticks[k].probe) == Some(o)
    requires ticks[|ticks| - 1].now - RunStart(maps, app.id, o, ticks[0].now)
               >= ThresholdNanos(EffectiveMinDowntime(app))
    ensures |Trace(maps, template, app, ticks).writes| == 1
    decreases |ticks|
  {
    var t := ticks[0];
    var s := Step(maps, template, app, t.probe, t.now);
    StepNotifiesIff(maps, template, app, t.probe, t.now, o);
    assert forall k | 0 <= k < |ticks[1..]| :: ticks[1..][k] == ticks[k + 1];
    if s.statusUpdate.Some? {
      var app' := app.(online := o);
      assert AllOutcomes(ticks[1..], o);
      SameAsStoredNeverFires(s.maps, template, app', ticks[1..]);
    } else {
      assert |ticks| > 1;
      assert RunStart(s.maps, app.id, o, ticks[1].now) == RunStart(maps, app.id, o, t.now);
      PersistentChangeFiresOnce(s.maps, template, app, ticks[1..], o);
    }
  }

  /**
   * A worked scenario with a 60 s minimum downtime: online at 0 s, offline at
   * 30 s, online at 45 s, offline at 90 s and 160 s. The flap at 30-45 s stays
   * silent; the outage from 90 s is declared once, at the first check that is at
   * least 60 s into it (160 s).
   */
  lemma ScenarioSixtySeconds()
    ensures var app := Application(7, "T", "https://t.example", [], true, Some(60));
            var up, down := Answered(200), Answered(503);
            var s := NanosPerSecond;
            var ticks := [Tick(up, 0), Tick(down, 30 * s), Tick(up, 45 * s), Tick(down, 90 * s), Tick(down, 160 * s)];
            Trace(SinceMaps(map[], map[]), DefaultTemplate, app, ticks).writes == [StatusWrite(7, false)]
  {
    var app := Application(7, "T", "https://t.example", [], true, Some(60));
    var up, down := Answered(200), Answered(503);
    var s := NanosPerSecond;
    var ticks := [Tick(up, 0), Tick(down, 30 * s), Tick(up, 45 * s), Tick(down, 90 * s), Tick(down, 160 * s)];
    var m0 := SinceMaps(map[], map[]);
    var s0 := Step(m0, DefaultTemplate, app, up, 0);
    assert s0.statusUpdate.None?;
    var s1 := Step(s0.maps, DefaultTemplate, app, down, 30 * s);
    assert s1.maps.offlineSince[7] == 30 * s;
    assert s1.statusUpdate.None?;
    var s2 := Step(s1.maps, DefaultTemplate, app, up, 45 * s);
    assert s2.statusUpdate.None?;
    assert 7 !in s2.maps.offlineSince;
    var s3 := Step(s2.maps, DefaultTemplate, app, down, 90 * s);
    assert s3.maps.offlineSince[7] == 90 * s;
    assert s3.statusUpdate.None?;
    var s4 := Step(s3.maps, DefaultTemplate, app, down, 160 * s);
    assert s4.statusUpdate == Some(StatusWrite(7, false));
    assert ticks[1..][1..][1..][1..][1..] == [];
    assert Trace(s3.maps, DefaultTemplate, app, ticks[1..][1..][1..][1..]).writes == [StatusWrite(7, false)];
    assert Trace(s2.maps, DefaultTemplate, app, ticks[1..][1..][1..]).writes == [StatusWrite(7, false)];
    assert Trace(s1.maps, DefaultTemplate, app, ticks[1..][1..]).writes == [StatusWrite(7, false)];
    assert Trace(s0.maps, DefaultTemplate, app, ticks[1..]).writes == [StatusWrite(7, false)];
  }
}

=== FILE: pagination.dfy ===
/** Page arithmetic of the application listing: defaults, the skip/take window and the page count */
module Pagination {
  import opened Wrappers

  const DefaultPageSize: int := 10

  function Min(a: int, b: int): int {
    if a <= b then a else b
  }

  /** `Math.max(1, page || 1)`: a missing, zero or negative page becomes the first page */
  function ClampPage(page: Option<int>): (p: int)
    ensures p >= 1
    ensures page.Some? && page.value >= 1 ==> p == page.value
    ensures page.None? || page.value < 1 ==> p == 1
  {
    var requested := if page.Some? && page.value != 0 then page.value else 1;
    if requested > 1 then requested else 1
  }

  /** `itemsPerPage || 10`: a missing or zero page size becomes 10; any other value is kept */
  function PageSize(n: Option<int>): (k: int)
    ensures k != 0
    ensures n.Some? && n.value != 0 ==> k == n.value
    ensures n.None? || n.value == 0 ==> k == DefaultPageSize
  {
    if n.Some? && n.value != 0 then n.value else DefaultPageSize
  }

  /** `skip`/`take` over an ordered list */
  function Window<T>(xs: seq<T>, skip: nat, take: nat): (r: seq<T>)
    ensures |r| == if skip >= |xs| then 0 else Min(take, |xs| - skip)
    ensures forall k | 0 <= k < |r| :: r[k] == xs[skip + k]
  {
    if skip >= |xs| then [] else xs[skip..skip + Min(take, |xs| - skip)]
  }

  /** `(page - 1) * n`: how many elements precede the page */
  function Skip(page: int, n: int): (s: nat)
    requires page >= 1 && n > 0
  {
    (page - 1) * n
  }

  /** The elements at positions [Skip(page, n), Skip(page, n) + n) of the list */
  function PageOf<T>(xs: seq<T>, page: int, n: int): (r: seq<T>)
    requires page >= 1 && n > 0
    ensures |r| == if Skip(page, n) >= |xs| then 0 else Min(n, |xs| - Skip(page, n))
    ensures forall k | 0 <= k < |r| :: r[k] == xs[Skip(page, n) + k]
  {
    Window(xs, Skip(page, n), n)
  }

  /** `Math.ceil(total / n)` for a positive page size */
  function MaxPage(total: nat, n: int): (m: nat)
    requires n > 0
    ensures (m - 1) * n < total <= m * n
    ensures m == 0 <==> total == 0
  {
    var m := (total + n - 1) / n;
    assert m * n + (total + n - 1) % n == total + n - 1;
    m
  }

  /** The bounds of MaxPage pin it down: no other count of pages fits */
  lemma MaxPageUnique(total: nat, n: int, m: int)
    requires n > 0 && (m - 1) * n < total <= m * n
    ensures m == MaxPage(total, n)
  {
  }

  /** For a page number of at least 1, the page holds something exactly when it is at most MaxPage */
  lemma PageNonEmptyIff<T>(xs: seq<T>, page: int, n: int)
    requires page >= 1 && n > 0
    ensures |PageOf(xs, page, n)| > 0 <==> page <= MaxPage(|xs|, n)
  {
    var m := MaxPage(|xs|, n);
    if page <= m {
      assert (page - 1) * n <= (m - 1) * n;
    } else {
      assert m * n <= (page - 1) * n;
    }
  }

  /** The list cut into consecutive pages of `n` */
  function Chunks<T>(xs: seq<T>, n: int): seq<seq<T>>
    requires n > 0
    decreases |xs|
  {
    if |xs| == 0 then [] else [xs[..Min(n, |xs|)]] + Chunks(xs[Min(n, |xs|)..], n)
  }

  function Flatten<T>(xss: seq<seq<T>>): seq<T> {
    if |xss| == 0 then [] else xss[0] + Flatten(xss[1..])
  }

  /** There are MaxPage chunks */
  lemma {:induction false} ChunkCount<T>(xs: seq<T>, n: int)
    requires n > 0
    ensures |Chunks(xs, n)| == MaxPage(|xs|, n)
    decreases |xs|
  {
    if |xs| != 0 {
      var c := Min(n, |xs|);
      var rest := xs[c..];
      ChunkCount(rest, n);
      var m := MaxPage(|rest|, n);
      if |rest| == 0 {
        MaxPageUnique(|xs|, n, 1);
      } else {
        assert (m + 1 - 1) * n == m * n && (m + 1) * n == m * n + n;
        MaxPageUnique(|xs|, n, m + 1);
      }
    }
  }

  /** Dropping the first `n` elements shifts every page down by one */
  lemma PageOfShift<T>(xs: seq<T>, p: int, n: int)
    requires p >= 2 && n > 0 && |xs| > n
    ensures PageOf(xs[n..], p - 1, n) == PageOf(xs, p, n)
  {
    var q := PageOf(xs[n..], p - 1, n);
    var w := PageOf(xs, p, n);
    assert Skip(p, n) == Skip(p - 1, n) + n;
    assert |q| == |w|;
    forall k | 0 <= k < |q| ensures q[k] == w[k] {
      assert xs[n..][Skip(p - 1, n) + k] == xs[Skip(p, n) + k];
    }
  }

  /** Chunk p - 1 is page p */
  lemma {:induction false} ChunksArePages<T>(xs: seq<T>, n: int, p: int)
    requires n > 0 && 1 <= p <= |Chunks(xs, n)|
    ensures Chunks(xs, n)[p - 1] == PageOf(xs, p, n)
    decreases |xs|
  {
    var c := Min(n, |xs|);
    var rest := xs[c..];
    if p == 1 {
      assert PageOf(xs, 1, n) == xs[0..c];
    } else {
      assert Chunks(xs, n)[p - 1] == Chunks(rest, n)[p - 2];
      ChunksArePages(rest, n, p - 1);
      assert |rest| > 0;
      PageOfShift(xs, p, n);
    }
  }

  /** The chunks put back together are the list */
  lemma {:induction false} ChunksFlatten<T>(xs: seq<T>, n: int)
    requires n > 0
    ensures Flatten(Chunks(xs, n)) == xs
    decreases |xs|
  {
    if |xs| != 0 {
      var c := Min(n, |xs|);
      ChunksFlatten(xs[c..], n);
      assert xs[..c] + xs[c..] == xs;
    }
  }

  /**
   * Pages 1 to MaxPage are exactly the consecutive chunks of the list: there are
   * MaxPage of them, page p is chunk p, and together they are the whole list
   */
  lemma PagesPartitionList<T>(xs: seq<T>, n: int)
    requires n > 0
    ensures |Chunks(xs, n)| == MaxPage(|xs|, n)
    ensures forall p | 1 <= p <= |Chunks(xs, n)| :: Chunks(xs, n)[p - 1] == PageOf(xs, p, n)
    ensures Flatten(Chunks(xs, n)) == xs
  {
    ChunkCount(xs, n);
    forall p | 1 <= p <= |Chunks(xs, n)|
      ensures Chunks(xs, n)[p - 1] == PageOf(xs, p, n)
    {
      ChunksArePages(xs, n, p);
    }
    ChunksFlatten(xs, n);
  }
}

=== FILE: text.dfy ===
/**
 * Go's `strings.ReplaceAll` on strings of characters: a left-to-right scan
 * that replaces every non-overlapping occurrence of a pattern and never
 * rescans the text it has inserted.
 */
module Text {

  /** `pat` occurs somewhere in `s` */
  ghost predicate Contains(s: string, pat: string) {
    exists i | 0 <= i <= |s| :: pat <= s[i..]
  }

  /** Go's rule for an empty pattern: `rep` before every character and once at the end */
  function Interleave(s: string, rep: string): (r: string)
    ensures |r| == |s| + (|s| + 1) * |rep|
  {
    if |s| == 0 then rep else rep + [s[0]] + Interleave(s[1..], rep)
  }

  /**
   * Interleave is `rep` before each character: the i-th block of |rep| + 1
   * characters is `rep` followed by s[i] (and, by the length, `rep` ends the text)
   */
  lemma {:induction false} InterleaveAt(s: string, rep: string, i: nat)
    requires i < |s|
    ensures i * (|rep| + 1) + |rep| + 1 <= |Interleave(s, rep)|
    ensures Interleave(s, rep)[i * (|rep| + 1) .. i * (|rep| + 1) + |rep| + 1] == rep + [s[i]]
    decreases i
  {
    var w := |rep| + 1;
    var r := Interleave(s, rep);
    assert r == rep + [s[0]] + Interleave(s[1..], rep);
    if i != 0 {
      InterleaveAt(s[1..], rep, i - 1);
      assert i * w == (i - 1) * w + w;
      assert r[w..] == Interleave(s[1..], rep);
    }
  }

  /** strings.ReplaceAll(s, pat, rep) */
  function ReplaceAll(s: string, pat: string, rep: string): (r: string)
    decreases |s|
  {
    if |pat| == 0 then Interleave(s, rep)
    else if |s| == 0 then []
    else if pat <= s then rep + ReplaceAll(s[|pat|..], pat, rep)
    else [s[0]] + ReplaceAll(s[1..], pat, rep)
  }

  /** The number of occurrences the scan of ReplaceAll replaces */
  function Count(s: string, pat: string): nat
    requires |pat| > 0
    decreases |s|
  {
    if |s| == 0 then 0
    else if pat <= s then 1 + Count(s[|pat|..], pat)
    else Count(s[1..], pat)
  }

  lemma SuffixOfSuffix(s: string, i: nat)
    requires 0 < |s| && i <= |s| - 1
    ensures s[1..][i..] == s[i + 1..]
  {
  }

  /** Counting agrees with containment: the scan replaces something iff the pattern occurs */
  lemma {:induction false} CountPositiveIff(s: string, pat: string)
    requires |pat| > 0
    ensures Count(s, pat) > 0 <==> Contains(s, pat)
    decreases |s|
  {
    if |s| == 0 {
      assert forall i | 0 <= i <= |s| :: !(pat <= s[i..]);
    } else if pat <= s {
      assert pat <= s[0..];
    } else {
      CountPositiveIff(s[1..], pat);
      if Contains(s[1..], pat) {
        var i :| 0 <= i <= |s[1..]| && pat <= s[1..][i..];
        SuffixOfSuffix(s, i);
        assert pat <= s[i + 1..];
      }
      if Contains(s, pat) {
        var i :| 0 <= i <= |s| && pat <= s[i..];
        assert i != 0;
        SuffixOfSuffix(s, i - 1);
        assert pat <= s[1..][i - 1..];
      }
    }
  }

  /** One step of the scan at a match */
  lemma UnfoldAtMatch(s: string, pat: string, rep: string)
    requires |pat| > 0 && |s| > 0 && pat <= s
    ensures ReplaceAll(s, pat, rep) == rep + ReplaceAll(s[|pat|..], pat, rep)
    ensures Count(s, pat) == 1 + Count(s[|pat|..], pat)
  {
  }

  /** One step of the scan where no match starts */
  lemma UnfoldNoMatch(s: string, pat: string, rep: string)
    requires |pat| > 0 && |s| > 0 && !(pat <= s)
    ensures ReplaceAll(s, pat, rep) == [s[0]] + ReplaceAll(s[1..], pat, rep)
    ensures Count(s, pat) == Count(s[1..], pat)
  {
  }

  lemma LengthArithmetic(n: int, p: int, q: int, c: int, tail: int)
    requires tail == (n - p) + c * (q - p)
    ensures q + tail == n + (1 + c) * (q - p)
  {
    assert (1 + c) * (q - p) == (q - p) + c * (q - p);
  }

  /** Each replacement changes the length by |rep| - |pat| */
  lemma {:induction false} ReplaceAllLength(s: string, pat: string, rep: string)
    requires |pat| > 0
    ensures |ReplaceAll(s, pat, rep)| == |s| + Count(s, pat) * (|rep| - |pat|)
    decreases |s|
  {
    if |s| == 0 {
    } else if pat <= s {
      var rest := s[|pat|..];
      UnfoldAtMatch(s, pat, rep);
      ReplaceAllLength(rest, pat, rep);
      LengthArithmetic(|s|, |pat|, |rep|, Count(rest, pat), |ReplaceAll(rest, pat, rep)|);
    } else {
      UnfoldNoMatch(s, pat, rep);
      ReplaceAllLength(s[1..], pat, rep);
    }
  }

  lemma NonZeroProduct(c: int, d: int)
    requires c > 0 && d != 0
    ensures c * d != 0
  {
    if d > 0 {
      assert c * d >= d;
    } else {
      assert c * d <= d;
    }
  }

  /** A text that does not contain the pattern comes back unchanged */
  lemma {:induction false} ReplaceAllAbsent(s: string, pat: string, rep: string)
    requires |pat| > 0 && !Contains(s, pat)
    ensures ReplaceAll(s, pat, rep) == s
    decreases |s|
  {
    if |s| != 0 {
      assert !(pat <= s[0..]);
      assert s[0..] == s;
      forall i | 0 <= i <= |s[1..]|
        ensures !(pat <= s[1..][i..])
      {
        SuffixOfSuffix(s, i);
        assert !(pat <= s[i + 1..]);
      }
      ReplaceAllAbsent(s[1..], pat, rep);
    }
  }

  /** For a replacement that differs from the pattern, the text is unchanged exactly when the pattern is absent */
  lemma {:induction false} ReplaceAllFixedIff(s: string, pat: string, rep: string)
    requires |pat| > 0 && rep != pat
    ensures ReplaceAll(s, pat, rep) == s <==> !Contains(s, pat)
    decreases |s|
  {
    if !Contains(s, pat) {
      ReplaceAllAbsent(s, pat, rep);
    } else if |rep| != |pat| {
      CountPositiveIff(s, pat);
      ReplaceAllLength(s, pat, rep);
      var c, d := Count(s, pat), |rep| - |pat|;
      assert c > 0 && d != 0;
      assert c * d != 0 by { NonZeroProduct(c, d); }
    } else {
      assert |s| > 0;
      if pat <= s {
        var r := ReplaceAll(s, pat, rep);
        assert r[..|pat|] == rep;
        assert s[..|pat|] == pat;
      } else {
        assert Contains(s[1..], pat) by {
          var i :| 0 <= i <= |s| && pat <= s[i..];
          assert i != 0 by { assert s[0..] == s; }
          SuffixOfSuffix(s, i - 1);
          assert pat <= s[1..][i - 1..];
        }
        ReplaceAllFixedIff(s[1..], pat, rep);
        var r := ReplaceAll(s, pat, rep);
        assert r[1..] == ReplaceAll(s[1..], pat, rep);
      }
    }
  }

  /** No occurrence of `pat` starts at any of the first `n` positions of `s` */
  predicate NoMatchWithin(s: string, n: nat, pat: string)
    decreases n
  {
    n == 0 || (|s| > 0 && !(pat <= s) && NoMatchWithin(s[1..], n - 1, pat))
  }

  /** The first `n` characters, where no occurrence starts, are copied through unchanged */
  lemma {:induction false} ReplaceAllKeepsPrefix(s: string, n: nat, pat: string, rep: string)
    requires |pat| > 0 && n <= |s| && NoMatchWithin(s, n, pat)
    ensures ReplaceAll(s, pat, rep) == s[..n] + ReplaceAll(s[n..], pat, rep)
    decreases n
  {
    if n != 0 {
      var t := s[1..];
      UnfoldNoMatch(s, pat, rep);
      ReplaceAllKeepsPrefix(t, n - 1, pat, rep);
      var head, tail := t[..n - 1], ReplaceAll(t[n - 1..], pat, rep);
      assert t[n - 1..] == s[n..];
      assert [s[0]] + head == s[..n];
      calc {
        ReplaceAll(s, pat, rep);
        [s[0]] + ReplaceAll(t, pat, rep);
        [s[0]] + (head + tail);
        ([s[0]] + head) + tail;
      }
    }
  }

  /** No occurrence starts where the pattern's first character does not stand */
  lemma {:induction false} NoFirstCharNoMatch(s: string, n: nat, pat: string)
    requires |pat| > 0 && n <= |s|
    requires forall i | 0 <= i < n :: s[i] != pat[0]
    ensures NoMatchWithin(s, n, pat)
    decreases n
  {
    if n != 0 {
      assert s[0] != pat[0];
      NoFirstCharNoMatch(s[1..], n - 1, pat);
    }
  }

  /** A leading occurrence is replaced and the scan resumes right after it */
  lemma LeadingMatch(b: string, pat: string, rep: string)
    requires |pat| > 0
    ensures ReplaceAll(pat + b, pat, rep) == rep + ReplaceAll(b, pat, rep)
  {
    assert pat <= pat + b;
    assert (pat + b)[|pat|..] == b;
  }

  /** A text in which no occurrence starts anywhere comes back unchanged */
  lemma KeepsAll(s: string, pat: string, rep: string)
    requires |pat| > 0 && NoMatchWithin(s, |s|, pat)
    ensures ReplaceAll(s, pat, rep) == s
  {
    ReplaceAllKeepsPrefix(s, |s|, pat, rep);
    assert s[|s|..] == [];
    assert s[..|s|] == s;
  }

  /** Match-free stretches join up */
  lemma {:induction false} NoMatchJoin(s: string, n: nat, m: nat, pat: string)
    requires n + m <= |s| && NoMatchWithin(s, n, pat) && NoMatchWithin(s[n..], m, pat)
    ensures NoMatchWithin(s, n + m, pat)
    decreases n
  {
    if n == 0 {
      assert s[0..] == s;
    } else {
      assert s[1..][n - 1..] == s[n..];
      NoMatchJoin(s[1..], n - 1, m, pat);
    }
  }

  /** No occurrence starts where fewer characters than the pattern's length remain */
  lemma {:induction false} TooShortNoMatch(s: string, pat: string)
    requires |s| < |pat|
    ensures NoMatchWithin(s, |s|, pat)
    decreases |s|
  {
    if |s| != 0 {
      TooShortNoMatch(s[1..], pat);
    }
  }

  /**
   * A text whose only possible `pat[0]` is its last character contains no
   * occurrence of a pattern of two or more characters
   */
  lemma NoMatchUpToLast(s: string, pat: string)
    requires |pat| >= 2
    requires forall i | 0 <= i < |s| - 1 :: s[i] != pat[0]
    ensures NoMatchWithin(s, |s|, pat)
  {
    if |s| != 0 {
      NoFirstCharNoMatch(s, |s| - 1, pat);
      TooShortNoMatch(s[|s| - 1..], pat);
      NoMatchJoin(s, |s| - 1, 1, pat);
    }
  }

  /**
   * Another pattern `q` with the same first character but a different second
   * one, between a text free of that first character and a match-free rest,
   * leaves the whole text free of `pat`
   */
  lemma NoMatchAcrossOther(x: string, q: string, y: string, pat: string)
    requires |pat| >= 2 && |q| >= 2 && q[0] == pat[0] && q[1] != pat[1]
    requires pat[0] !in x && pat[0] !in q[1..]
    requires NoMatchWithin(y, |y|, pat)
    ensures NoMatchWithin(x + q + y, |x + q + y|, pat)
  {
    var s := x + q + y;
    var qy := q + y;
    assert s[|x|..] == qy;
    NoFirstCharNoMatch(s, |x|, pat);
    assert qy[1] != pat[1];
    assert NoMatchWithin(qy, 1, pat) by {
      assert NoMatchWithin(qy[1..], 0, pat);
    }
    assert qy[1..] == q[1..] + y;
    NoFirstCharNoMatch(qy[1..], |q| - 1, pat);
    assert qy[1..][|q| - 1..] == y;
    NoMatchJoin(qy[1..], |q| - 1, |y|, pat);
    assert NoMatchWithin(qy, |qy|, pat);
    NoMatchJoin(s, |x|, |qy|, pat);
  }

  /**
   * A text with exactly one occurrence: no occurrence starts in `a`, even one
   * running into `pat + r`, and none in `r`. That occurrence is replaced and
   * nothing else changes.
   */
  lemma ReplaceOnly(a: string, pat: string, r: string, rep: string)
    requires |pat| > 0 && NoMatchWithin(a + pat + r, |a|, pat) && NoMatchWithin(r, |r|, pat)
    ensures ReplaceAll(a + pat + r, pat, rep) == a + rep + r
  {
    var s := a + pat + r;
    assert s == a + (pat + r);
    ReplaceAllKeepsPrefix(s, |a|, pat, rep);
    assert s[..|a|] == a && s[|a|..] == pat + r;
    LeadingMatch(r, pat, rep);
    KeepsAll(r, pat, rep);
  }

  /** The common case of ReplaceOnly: the text before the occurrence lacks the pattern's first character */
  lemma ReplaceSingle(a: string, pat: string, r: string, rep: string)
    requires |pat| > 0 && pat[0] !in a && NoMatchWithin(r, |r|, pat)
    ensures ReplaceAll(a + pat + r, pat, rep) == a + rep + r
  {
    NoFirstCharNoMatch(a + pat + r, |a|, pat);
    ReplaceOnly(a, pat, r, rep);
  }

  /** A '!' before the only "!name" does not stop its replacement */
  lemma ReplaceAfterEarlierBang()
    ensures ReplaceAll("a!x!nameb", "!name", "N") == "a!xNb"
  {
    var s := "a!x!nameb";
    assert s == "a!x" + "!name" + "b";
    // the scan passes 'a', then "!x" (a '!' not followed by 'n'), then 'x'
    assert s[2..][0] == 'x' && s[2..][1..] == s[3..];
    assert NoMatchWithin(s[2..], 1, "!name");
    assert s[1..][1] == 'x' && s[1..][1..] == s[2..];
    assert NoMatchWithin(s[1..], 2, "!name");
    assert s[0] == 'a';
    assert NoMatchWithin("b"[1..], 0, "!name");
    ReplaceOnly("a!x", "!name", "b", "N");
  }
}

=== FILE: wrappers.dfy ===
/** Optional values: a nullable column, a missing request field, a skipped check. */
module Wrappers {

  datatype Option<+T> = None | Some(value: T) {

    /** Returns the value held in Some, or `default` when None */
    function GetOr(default: T): T {
      match this
      case Some(v) => v
      case None => default
    }
  }
}
